=== FILE: README.md ===
# Transcript normalisation, modelled in Dafny

The transcript server takes a raw episode transcript and normalises it into
one range shape: `start`, `end`, a list of `[timestamp, text]` words and a
list of paragraph start times. This project models that normalisation, which
lives in `server/routes/getTranscript.js`. A raw transcript comes in one of
two shapes:

- **Format A** (`transcript.words` present): every word already carries an
  absolute millisecond time. The normaliser resolves the requested window
  (`start || 0`, `end || duration`). It keeps the words that have non-empty
  text and lie inside the window, with both bounds inclusive. Each kept word
  is cleaned with `striptags(decodeHTMLEntities(text))`. It also keeps the
  paragraph starts that lie inside the window.
- **Format B** (a flat `transcript` text with character-offset words): the
  normaliser works in four steps:
  1. It folds over the words to give each one a timestamp. A word with an
     alignment `start` takes that value. Any other word takes the previous
     timestamp plus 1 ms, which is `NaN` before the first anchor.
  2. It cuts each word's text out of the transcript with `substr`, up to the
     next word's start. It then decodes entities, trims and strips tags.
  3. It drops words whose text became empty and puts the `['0','']`
     placeholder in front.
  4. It makes a paragraph start at every word that ends in terminal
     punctuation and is longer than three characters, with `0` in front.

The modules follow the program's structure:

| file | module | what it holds |
|---|---|---|
| `wrappers.dfy` | `Wrappers` | `Option` |
| `seqs.dfy` | `Seqs` | `Filter`, `Map`, the subsequence relation, counting |
| `strings.dfy` | `JsStrings` | global literal `replace`, `substr`, `trim` |
| `entities.dfy` | `Entities` | `decodeHTMLEntities` |
| `transcript.dfy` | `Transcript` | raw formats, request, output range, JavaScript's `or` on numbers |
| `aligned_format.dfy` | `AlignedFormat` | the Format A branch |
| `offset_format.dfy` | `OffsetFormat` | the Format B branch |
| `episode_transcript.dfy` | `EpisodeTranscript` | the dispatch between the two |

`striptags` is a library call whose code is not part of this model. It is a
function-valued parameter `strip`, applied exactly where the source applies
it. Times are handled as follows:

- Window bounds are `real` seconds.
- Format A times are integer milliseconds.
- Format B anchors are already multiplied by 1000.
- The timestamp type `Stamp` has an explicit `NaN` case.

### Behaviour worth knowing

The model keeps these properties of `getTranscript.js`:

- **The Format A "add first paragraph" step never runs.** `index` only ever
  holds `false` or `true`, so `index && index !== true` cannot hold (lines
  69-83). `ParagraphsInRange` keeps that branch as a dead one, and the
  result is exactly the in-window paragraphs.
- **Entity decoding is chained, not one level deep.** The five passes run in
  the order `apos`, `amp`, `lt`, `gt`, `quot`, each on the output of the pass
  before. So `&amp;lt;` decodes to `<`, while `&amp;apos;` decodes only to
  `&apos;`.
- **Format B applies no time window.** `startTimeMillis` and `endTimeMillis`
  are computed but never read, so the requested window only feeds
  `range.start` and `range.end`.
- **`start <= end` is never enforced.** An inverted window keeps nothing in
  Format A.
- **A bound or anchor of `0` counts as missing.** JavaScript treats 0 as
  falsy. A requested `start: 0` gives 0 anyway, and an `end: 0` falls back
  to the duration. A Format B word with `start: 0` is estimated instead of
  anchored.
- **Format A tests the raw text, not the cleaned text.** Its non-empty test
  runs before decoding and stripping, so a kept word's output text can be
  empty.
- **Format B cleans in a fixed order:** decode, then trim, then strip.

## Model

| member | source | states |
|---|---|---|
| JsStrings.ReplaceAll | server/routes/getTranscript.js:192 | a global replace of a pattern by a no-longer text never lengthens the text, and text without the pattern comes back unchanged |
| JsStrings.ReplaceAfterPlain | server/routes/getTranscript.js:192 | text in front of the first character the pattern starts with passes through the replace unchanged |
| JsStrings.ReplaceAfterClear | server/routes/getTranscript.js:192 | text in which no occurrence of the pattern starts passes through the replace unchanged, even when it contains the pattern's first character |
| JsStrings.ReplaceSplit | server/routes/getTranscript.js:192 | the first occurrence of the pattern becomes the replacement, the text before it is kept, and replacing continues right after it |
| JsStrings.StrayFirstCharKept | server/routes/getTranscript.js:192 | a stray `&` in front of `&amp;` is kept and the `&amp;` is still replaced: `A&&amp;` becomes `A&&` |
| JsStrings.ReplaceLeavesNoOccurrence | server/routes/getTranscript.js:192 | after replacing every occurrence of a pattern by one character that the pattern does not contain, the pattern is gone; a pattern that was absent and does not contain that character stays absent |
| JsStrings.Substr | server/routes/getTranscript.js:147 | `substr` returns a piece of the string: empty for a non-positive length or a start past the end, the exact slice when in bounds, cut at the end of the string otherwise |
| JsStrings.Trim | server/routes/getTranscript.js:147 | `trim` returns a slice with only whitespace cut off on each side, with no whitespace at either end, and empty exactly when the text is all whitespace |
| JsStrings.TrimIdempotent | server/routes/getTranscript.js:147 | trimming trimmed text changes nothing |
| Entities.ApplyPasses | server/routes/getTranscript.js:191-193 | the chained replace passes never lengthen the text and leave text without `&` untouched |
| Entities.PassesKeepAbsent | server/routes/getTranscript.js:191-193 | a pattern absent before the passes, none of whose characters a pass inserts, is absent after them |
| Entities.PassClearsPattern | server/routes/getTranscript.js:191-193 | a pass's pattern is absent from the final text when neither it nor a later pass inserts a character of that pattern |
| Entities.TablePatterns | server/routes/getTranscript.js:183-192 | the five passes search for `&apos;`, `&amp;`, `&lt;`, `&gt;`, `&quot;`, in that order |
| Entities.TableClearsMarkup | server/routes/getTranscript.js:183-193 | after all five passes no `&lt;`, `&gt;` or `&quot;` remains |
| Entities.DecodeEntities | server/routes/getTranscript.js:182-196 | decoding never lengthens, is the identity on text without `&`, and leaves no `&lt;`, `&gt;`, `&quot;` behind |
| Entities.DoublyEscapedLessThan | server/routes/getTranscript.js:183-193 | because `amp` runs before `lt`, `&amp;lt;` decodes all the way to `<` |
| Entities.DoublyEscapedApostrophe | server/routes/getTranscript.js:183-193 | because `apos` runs before `amp`, `&amp;apos;` decodes only to `&apos;` |
| Entities.DecodeApostrophe | server/routes/getTranscript.js:182-196 | a lone `&apos;` in text with no other `&` becomes `'`, and the text around it is kept |
| Entities.DecodeAmpersand | server/routes/getTranscript.js:182-196 | a lone `&amp;` in text with no other `&` becomes `&`, and the text around it is kept, provided what follows does not start with `lt;`, `gt;` or `quot;` (otherwise a later pass decodes again) |
| Entities.DecodeLessThan | server/routes/getTranscript.js:182-196 | a lone `&lt;` in text with no other `&` becomes `<`, and the text around it is kept |
| Entities.DecodeGreaterThan | server/routes/getTranscript.js:182-196 | a lone `&gt;` in text with no other `&` becomes `>`, and the text around it is kept |
| Entities.DecodeQuote | server/routes/getTranscript.js:182-196 | a lone `&quot;` in text with no other `&` becomes `"`, and the text around it is kept |
| AlignedFormat.ZeroMeansAbsent | server/routes/getTranscript.js:59-60 | requested bounds of 0 resolve like missing ones: window `[0, duration]` |
| AlignedFormat.RangeEndIsWindowEnd | server/routes/getTranscript.js:98 | the fallback to the duration in `range.end` is never taken: it always equals the resolved window end |
| AlignedFormat.WordsInRange | server/routes/getTranscript.js:63-67 | every kept word is the cleaned image of an input word with non-empty text and time inside the window, and keeps that word's time |
| AlignedFormat.WordsInRangeCount | server/routes/getTranscript.js:63-67 | there is one output word per input word with non-empty text inside the window |
| AlignedFormat.WordsInRangeOrder | server/routes/getTranscript.js:63-67 | the output words appear in input order: they are a subsequence of all input words, cleaned |
| AlignedFormat.WordsInRangeComplete | server/routes/getTranscript.js:63-67 | every input word with non-empty text inside the window appears, cleaned, in the output |
| AlignedFormat.ParagraphPass | server/routes/getTranscript.js:69-78 | the filter with its `index` flag keeps exactly the in-window paragraphs, and the flag ends up set exactly when an in-window paragraph sits past position 1 |
| AlignedFormat.IndexFlagMeaning | server/routes/getTranscript.js:69-78 | starting from `false`, the flag records whether an in-window paragraph exists at a position above 1 |
| AlignedFormat.ParagraphsInRange | server/routes/getTranscript.js:69-83 | the output paragraphs are exactly the in-window starts in input order; the prepend step adds nothing |
| AlignedFormat.NormalizeAligned | server/routes/getTranscript.js:59-100 | range bounds are the requested ones or 0 and the duration; every output word is the cleaned image of an input word with non-empty text inside the resolved window, with that word's time; there is exactly one output word per such input word and none is lost; the paragraphs are exactly the in-window input paragraph starts, in input order |
| AlignedFormat.FullWindowKeepsEverything | server/routes/getTranscript.js:59-83 | with no requested window and all times within the episode, every word with text and every paragraph comes out, in order |
| AlignedFormat.ExampleFilter | server/routes/getTranscript.js:63-64 | words at 1 s, 2 s and 5 s with window 1-3 s: the inclusive bounds keep the first two |
| AlignedFormat.ExampleClean | server/routes/getTranscript.js:65-67 | cleaning words without entities hands their raw text to `striptags` and keeps their time |
| AlignedFormat.ExampleWindow | server/routes/getTranscript.js:59-67 | the window 1-3 s over those words yields the first two, cleaned, with their times |
| OffsetFormat.EstimateFrom | server/routes/getTranscript.js:139-146 | one timestamp per word; an anchored word gets its anchor; once the running timestamp is a number, all later ones are |
| OffsetFormat.EstimateClosedForm | server/routes/getTranscript.js:126-146 | each word's timestamp is the last anchor at or before it plus the distance to it, or `NaN` with no anchor yet |
| OffsetFormat.NaNUntilFirstAnchor | server/routes/getTranscript.js:126-146 | every word before the first anchor gets `NaN` |
| OffsetFormat.RunBetweenAnchors | server/routes/getTranscript.js:143-146 | between anchors timestamps count up by exactly 1 ms per word |
| OffsetFormat.TimestampsIncrease | server/routes/getTranscript.js:139-146 | with the first word anchored and anchors spaced at least one ms per word, all timestamps are numbers and strictly increase |
| OffsetFormat.RawSpan | server/routes/getTranscript.js:128-147 | a word's raw text runs from its `startOffset` to the next word's start (its own `endOffset` for the last word); a word without `startOffset` gets the empty string |
| OffsetFormat.SpansTileTranscript | server/routes/getTranscript.js:127-147 | with well-formed offsets the raw spans concatenate to exactly the transcript from the first word's start to the last word's end |
| OffsetFormat.Annotated | server/routes/getTranscript.js:127-148 | one entry per input word; its time is the last anchor at or before it plus the distance to that anchor (`NaN` before any anchor); when the offsets lie inside the text, its text is the transcript from its `startOffset` to the next word's start, decoded, trimmed and stripped; without a `startOffset` it is `strip("")` |
| OffsetFormat.Spoken | server/routes/getTranscript.js:149 | no word with empty text survives the filter |
| OffsetFormat.WordList | server/routes/getTranscript.js:149-151 | the list opens with the `['0','']` placeholder and every later word has text |
| OffsetFormat.WordListContents | server/routes/getTranscript.js:127-151 | after the placeholder come, in input order, exactly the annotated words with non-empty text (counted, order kept, none lost) |
| OffsetFormat.WordTimesIncrease | server/routes/getTranscript.js:139-151 | when the timestamps increase, the output words after the placeholder have strictly increasing numeric times |
| OffsetFormat.EndsTerminalIsRegex | server/routes/getTranscript.js:154 | the terminal-punctuation test holds exactly when the source's regular expression matches: some suffix of the text is one of `?`, `.`, `!` or one of them followed by `"` |
| OffsetFormat.Paragraphs | server/routes/getTranscript.js:154-157 | paragraph starts are 0 followed, in order, by the times of exactly the words that end in terminal punctuation and have more than three characters |
| OffsetFormat.PlaceholderNeverMarks | server/routes/getTranscript.js:151-154 | the placeholder never starts a paragraph, so the paragraph filter over the list equals the filter over the real words |
| OffsetFormat.NormalizeOffset | server/routes/getTranscript.js:121-177 | range bounds resolve as in Format A; the words are the word list (the placeholder, then exactly the annotated words with text, in order); the paragraphs are the ones synthesised from those words (0, then the times of the words with terminal punctuation) and are no more than the words |
| OffsetFormat.WindowDoesNotFilter | server/routes/getTranscript.js:121-124 | the requested window does not change Format B's words or paragraphs |
| OffsetFormat.ExampleTimestamps | server/routes/getTranscript.js:139-146 | anchors `0, -, 1000, -` give `NaN, NaN, 1000, 1001`: an anchor of 0 counts as missing |
| OffsetFormat.ExampleSpans | server/routes/getTranscript.js:128-147 | over "Hi there. Go now!" the spans keep the separating blanks with the word before, and the last stops at its `endOffset` |
| EpisodeTranscript.Normalize | server/routes/getTranscript.js:58-177 | either format yields the resolved bounds; Format A output stays inside the window and holds exactly the in-window words with text, cleaned, and the in-window paragraph starts; Format B output is the placeholder followed by the annotated words with text, with the paragraphs synthesised from them |

## Left out

- Fetching the transcript and episode list (lines 12-43) is left out. It is network I/O.
- `JSON.parse` and the episode lookup (lines 51-53) are left out. The model starts from an already parsed `RawTranscript`.
- The `showData` metadata envelope and the `hls` URL (lines 85-95, 108-118, 161-171) are left out. They copy fields and read environment configuration; no transcript logic is involved.
- The logging and the `cb(err, …)` forwarding (lines 48-50, 159) are left out. They are I/O.
- `striptags` is not part of this model. It is a parameter, and nothing is assumed about it.
- OffsetFormat.NormalizeOffset: takes the episode duration as already resolved. The `Math.round(lastWord.end)` fallback for a missing duration (lines 105-107) and the `|| lastWord.end` fallback for the end time (line 122) are not modelled, because they need floating-point rounding of word times.
- Floating point is not modelled. Window bounds are exact reals, Format A times are integers, and Format B anchors arrive already multiplied by 1000 and rounded. So `Math.round` on timestamps (line 147) is the identity here.
- OffsetFormat.Annotated: keeps each timestamp as a `Stamp`, not the decimal string `Math.round(t)+''` that the source emits. `+word[0]` at line 155 reads that string back as the same number, or as `NaN`.
- Entities.DecodeEntities: its own contract states only the length bound, the identity on text without `&`, and that no `&lt;`, `&gt;` or `&quot;` remains. What each reference decodes to is stated by the lemmas DecodeApostrophe, DecodeAmpersand, DecodeLessThan, DecodeGreaterThan and DecodeQuote. They cover one reference in otherwise `&`-free text. Text with several references is left to the general pass lemmas.
- Strings are sequences of characters. JavaScript's UTF-16 code units, which `substr` and `length` count, are not distinguished from characters.
- The request bounds may only be numbers. A `NaN` or non-numeric request value is not modelled.
- A Format A body missing `duration` or `paragraphs` is not modelled, and neither is a Format B word missing `endOffset`. In the source these raise errors or yield `undefined` fields.
- AlignedFormat.ParagraphsInRange: the value the dead prepend branch would add (`paragraphs[index]`) is not modelled, because that branch cannot run.

=== FILE: aligned_format.dfy ===
/**
 Format A ("TAL" transcripts, lines 58-102 of getTranscript.js): words and
 paragraph starts already carry absolute millisecond times. The normaliser
 resolves the requested window and keeps the words and paragraphs inside it.
 */
module AlignedFormat {
  import opened Wrappers
  import opened Seqs
  import opened Entities
  import opened Transcript

  /** The resolved window, in seconds. */
  datatype Window = Window(startTime: real, endTime: real)

  /** The requested bounds, with a missing or falsy start read as 0 and a missing or falsy end as the duration. */
  function ResolveWindow(req: Request, duration: real): Window {
    Window(OrElse(req.start, 0.0), OrElse(req.end, duration))
  }

  /** A requested bound of 0 counts as absent: the start becomes 0 and the end becomes the duration. */
  lemma ZeroMeansAbsent(duration: real)
    ensures ResolveWindow(Request(Some(0.0), Some(0.0)), duration) == ResolveWindow(Request(None, None), duration)
    ensures ResolveWindow(Request(None, None), duration) == Window(0.0, duration)
  {
  }

  /** The range end's own fallback to the duration adds nothing: it is always the resolved end itself. */
  lemma RangeEndIsWindowEnd(req: Request, duration: real)
    ensures NumOr(ResolveWindow(req, duration).endTime, duration) == ResolveWindow(req, duration).endTime
  {
  }

  /** `t` lies in the window converted to milliseconds, both ends inclusive. */
  predicate InWindow(t: int, w: Window) {
    w.startTime * 1000.0 <= t as real <= w.endTime * 1000.0
  }

  /** The paragraph filter's test as a function value. */
  function InWindowOf(w: Window): int -> bool {
    t => InWindow(t, w)
  }

  /** The word filter's test: non-empty raw text and a timestamp in the window. */
  predicate KeepWord(word: AlignedWord, w: Window) {
    |word.text| > 0 && InWindow(word.time, w)
  }

  function KeepWordOf(w: Window): AlignedWord -> bool {
    word => KeepWord(word, w)
  }

  /** A kept word's output: the same time, and the text with entities decoded and then tags stripped. */
  function CleanWord(word: AlignedWord, strip: string -> string): TimedWord {
    TimedWord(Millis(word.time), strip(DecodeEntities(word.text)))
  }

  function CleanWordOf(strip: string -> string): AlignedWord -> TimedWord {
    word => CleanWord(word, strip)
  }

  /**
   The window's words (lines 63-67): each kept word is the cleaned image of an
   input word with non-empty text and time in the window, and keeps its time.
   */
  function WordsInRange(words: seq<AlignedWord>, w: Window, strip: string -> string): (r: seq<TimedWord>)
    ensures forall k :: 0 <= k < |r| ==>
      exists i :: 0 <= i < |words| && KeepWord(words[i], w) && r[k] == CleanWord(words[i], strip)
    ensures forall k :: 0 <= k < |r| ==> r[k].time.Millis? && InWindow(r[k].time.ms, w)
  {
    var kept := Filter(words, KeepWordOf(w));
    FilterMapSound(words, KeepWordOf(w), CleanWordOf(strip));
    Map(kept, CleanWordOf(strip))
  }

  /** One output word per input word with non-empty text in the window. */
  lemma WordsInRangeCount(words: seq<AlignedWord>, w: Window, strip: string -> string)
    ensures |WordsInRange(words, w, strip)| == CountWhere(words, KeepWordOf(w))
  {
    assert |Filter(words, KeepWordOf(w))| == CountWhere(words, KeepWordOf(w));
  }

  /** The kept words appear in input order. */
  lemma WordsInRangeOrder(words: seq<AlignedWord>, w: Window, strip: string -> string)
    ensures Subseq(WordsInRange(words, w, strip), Map(words, CleanWordOf(strip)))
  {
    SubseqMap(Filter(words, KeepWordOf(w)), words, CleanWordOf(strip));
  }

  /** No in-window word with non-empty text is lost. */
  lemma WordsInRangeComplete(words: seq<AlignedWord>, w: Window, strip: string -> string)
    ensures forall i :: 0 <= i < |words| && KeepWord(words[i], w) ==> CleanWord(words[i], strip) in WordsInRange(words, w, strip)
  {
    FilterMapComplete(words, KeepWordOf(w), CleanWordOf(strip));
  }

  /**
   The paragraph `filter` of lines 69-78, which also sets `index` once an
   in-window paragraph is met at a position beyond 1. Processes positions
   `i..` with flag `index`; returns the kept paragraphs and the final flag.
   */
  function ParagraphPass(ps: seq<int>, i: nat, w: Window, index: bool): (r: (seq<int>, bool))
    requires i <= |ps|
    ensures r.0 == Filter(ps[i..], InWindowOf(w))
    ensures r.1 <==> index || exists j :: i <= j < |ps| && 1 < j && InWindow(ps[j], w)
    decreases |ps| - i
  {
    if i == |ps| then ([], index)
    else
      var val := InWindow(ps[i], w);
      var index' := if val && !index && i > 1 then true else index;
      var rest := ParagraphPass(ps, i + 1, w, index');
      assert ps[i..][0] == ps[i] && ps[i..][1..] == ps[i + 1..];
      assert InWindowOf(w)(ps[i]) == val;
      (if val then [ps[i]] + rest.0 else rest.0, rest.1)
  }

  /**
   The window's paragraphs (lines 69-83): exactly the in-window paragraph
   starts, in input order. The prepend guard `index && index !== true` can
   never hold because `index` is only ever `false` or `true`.
   */
  function ParagraphsInRange(ps: seq<int>, w: Window): (r: seq<int>)
    ensures r == Filter(ps, InWindowOf(w))
    ensures forall k :: 0 <= k < |r| ==> InWindow(r[k], w)
    ensures forall i :: 0 <= i < |ps| && InWindow(ps[i], w) ==> ps[i] in r
  {
    var pass := ParagraphPass(ps, 0, w, false);
    var kept := pass.0;
    var index := pass.1;
    assert ps[0..] == ps;
    assert forall i :: 0 <= i < |ps| && InWindow(ps[i], w) ==> InWindowOf(w)(ps[i]);
    if index && index != true then
      // `paragraphs[index]` would be prepended here.
      assert false; kept
    else kept
  }

  /** The `index` flag records whether some in-window paragraph sits beyond position 1. */
  lemma IndexFlagMeaning(ps: seq<int>, w: Window)
    ensures ParagraphPass(ps, 0, w, false).1 <==> exists j :: 1 < j < |ps| && InWindow(ps[j], w)
  {
  }

  /**
   `r` holds exactly what the window selects: every output word is the cleaned
   image of an input word with non-empty text inside `w`, there is one output
   word per such input word and none of them is lost, and the paragraphs are
   the in-window starts in input order.
   */
  predicate Selects(r: Range, words: seq<AlignedWord>, paragraphs: seq<int>, w: Window, strip: string -> string) {
    && (forall k :: 0 <= k < |r.words| ==>
          exists i :: 0 <= i < |words| && KeepWord(words[i], w) && r.words[k] == CleanWord(words[i], strip))
    && |r.words| == CountWhere(words, KeepWordOf(w))
    && (forall i :: 0 <= i < |words| && KeepWord(words[i], w) ==> CleanWord(words[i], strip) in r.words)
    && r.paragraphs == Map(Filter(paragraphs, InWindowOf(w)), ToStamp)
  }

  /** The Format A branch of `episodeDataCallback`, without the metadata envelope. */
  function NormalizeAligned(words: seq<AlignedWord>, paragraphs: seq<int>, duration: real,
                            req: Request, strip: string -> string): (r: Range)
    ensures r.start == (if Truthy(req.start) then req.start.value else 0.0)
    ensures r.end == (if Truthy(req.end) then req.end.value else duration)
    ensures forall k :: 0 <= k < |r.words| ==>
      (r.words[k].time.Millis? && r.start * 1000.0 <= r.words[k].time.ms as real <= r.end * 1000.0)
    ensures |r.words| <= |words| && |r.paragraphs| <= |paragraphs|
    ensures forall k :: 0 <= k < |r.paragraphs| ==>
      (r.paragraphs[k].Millis? && r.start * 1000.0 <= r.paragraphs[k].ms as real <= r.end * 1000.0)
    ensures Selects(r, words, paragraphs, ResolveWindow(req, duration), strip)
  {
    var w := ResolveWindow(req, duration);
    var ws := WordsInRange(words, w, strip);
    var ps := ParagraphsInRange(paragraphs, w);
    RangeEndIsWindowEnd(req, duration);
    StampsInWindow(ps, w);
    WordsInRangeCount(words, w, strip);
    WordsInRangeComplete(words, w, strip);
    Range(w.startTime, NumOr(w.endTime, duration), ws, Map(ps, ToStamp))
  }

  /** Paragraph starts inside the window stay inside it as stamps. */
  lemma StampsInWindow(ps: seq<int>, w: Window)
    requires forall k :: 0 <= k < |ps| ==> InWindow(ps[k], w)
    ensures forall k :: 0 <= k < |Map(ps, ToStamp)| ==> Map(ps, ToStamp)[k].Millis? && InWindow(Map(ps, ToStamp)[k].ms, w)
  {
  }

  /** Predicate selecting words with non-empty text. */
  function NonEmptyText(word: AlignedWord): bool {
    |word.text| > 0
  }

  /**
   With no requested window and every time inside `[0, duration]`, the
   normaliser returns every word with non-empty text and every paragraph.
   */
  lemma FullWindowKeepsEverything(words: seq<AlignedWord>, paragraphs: seq<int>, duration: real, strip: string -> string)
    requires forall i :: 0 <= i < |words| ==> 0 <= words[i].time && words[i].time as real <= duration * 1000.0
    requires forall i :: 0 <= i < |paragraphs| ==> 0 <= paragraphs[i] && paragraphs[i] as real <= duration * 1000.0
    ensures NormalizeAligned(words, paragraphs, duration, Request(None, None), strip).words
         == Map(Filter(words, NonEmptyText), CleanWordOf(strip))
    ensures NormalizeAligned(words, paragraphs, duration, Request(None, None), strip).paragraphs
         == Map(paragraphs, ToStamp)
  {
    var w := ResolveWindow(Request(None, None), duration);
    assert forall i :: 0 <= i < |words| ==> (KeepWordOf(w)(words[i]) <==> NonEmptyText(words[i]));
    FilterCongruent(words, KeepWordOf(w), NonEmptyText);
    assert forall i :: 0 <= i < |paragraphs| ==> InWindowOf(w)(paragraphs[i]);
    FilterAll(paragraphs, InWindowOf(w));
  }

  /** Words at 1 s, 2 s and 5 s. */
  const ExampleWords: seq<AlignedWord> := [AlignedWord(1000, "a"), AlignedWord(2000, "b"), AlignedWord(5000, "c")]

  /** The window 1-3 s keeps the first two example words: both bounds are inclusive and 5 s is outside. */
  lemma ExampleFilter()
    ensures Filter(ExampleWords, KeepWordOf(Window(1.0, 3.0))) == ExampleWords[..2]
  {
    var ws := ExampleWords;
    var keep := KeepWordOf(Window(1.0, 3.0));
    assert keep(ws[0]) && keep(ws[1]) && !keep(ws[2]);
    assert Filter(ws[2..], keep) == [] by {
      assert ws[2..][1..] == [];
    }
    assert Filter(ws[1..], keep) == [ws[1]] by {
      assert ws[1..][1..] == ws[2..];
    }
  }

  /** Cleaning the two kept example words leaves their text to `strip` alone: there is nothing to decode. */
  lemma ExampleClean(strip: string -> string)
    ensures Map(ExampleWords[..2], CleanWordOf(strip))
         == [TimedWord(Millis(1000), strip("a")), TimedWord(Millis(2000), strip("b"))]
  {
    var kept := ExampleWords[..2];
    assert '&' !in kept[0].text && '&' !in kept[1].text;
    assert Map(kept, CleanWordOf(strip)) == [CleanWord(kept[0], strip), CleanWord(kept[1], strip)];
  }

  /** The requested window 1-3 s applied to the example words yields the first two, cleaned. */
  lemma ExampleWindow(strip: string -> string)
    ensures WordsInRange(ExampleWords, ResolveWindow(Request(Some(1.0), Some(3.0)), 10.0), strip)
         == [TimedWord(Millis(1000), strip("a")), TimedWord(Millis(2000), strip("b"))]
  {
    assert ResolveWindow(Request(Some(1.0), Some(3.0)), 10.0) == Window(1.0, 3.0);
    ExampleFilter();
    ExampleClean(strip);
  }
}

=== FILE: entities.dfy ===
/**
 The HTML entity decoder applied to every transcript word: five global
 replace passes over the text, in the fixed order of a small table.
 Each pass runs on the output of the one before, so the decoding is not
 single-level: `&amp;lt;` becomes `<`, while `&amp;apos;` stops at `&apos;`.
 */
module Entities {
  import opened JsStrings

  /** A named character reference `&name;` and the character it stands for. */
  datatype Entity = Entity(name: string, ch: char)

  /** The literal text the pass for `e` looks for. */
  function Pattern(e: Entity): string {
    "&" + e.name + ";"
  }

  /** The entity table, in the order the passes run. */
  const Table: seq<Entity> := [
    Entity("apos", '\''),
    Entity("amp", '&'),
    Entity("lt", '<'),
    Entity("gt", '>'),
    Entity("quot", '"')
  ]

  /** Runs one global replace pass per table entry, each on the previous pass's output. */
  function ApplyPasses(text: string, es: seq<Entity>): (r: string)
    ensures |r| <= |text|
    ensures '&' !in text ==> r == text
    decreases |es|
  {
    if |es| == 0 then text
    else
      var pat := Pattern(es[0]);
      assert pat[0] == '&';
      assert '&' !in text ==> !Occurs(text, pat) by {
        if '&' !in text {
          NoOccurrenceWithoutFirstChar(text, pat);
        }
      }
      ApplyPasses(ReplaceAll(text, pat, [es[0].ch]), es[1..])
  }

  /** A pattern that is absent stays absent through passes whose characters it does not contain. */
  lemma {:induction false} PassesKeepAbsent(text: string, es: seq<Entity>, q: string)
    requires |q| > 0 && !Occurs(text, q)
    requires forall k :: 0 <= k < |es| ==> es[k].ch !in q
    ensures !Occurs(ApplyPasses(text, es), q)
    decreases |es|
  {
    if |es| > 0 {
      var pat := Pattern(es[0]);
      ReplaceLeavesNoOccurrence(text, pat, es[0].ch, q);
      PassesKeepAbsent(ReplaceAll(text, pat, [es[0].ch]), es[1..], q);
    }
  }

  /**
   The pattern of pass `j` does not survive the passes, provided neither that
   pass nor any later one inserts a character of the pattern.
   */
  lemma {:induction false} PassClearsPattern(text: string, es: seq<Entity>, j: nat)
    requires j < |es|
    requires forall k :: j <= k < |es| ==> es[k].ch !in Pattern(es[j])
    ensures !Occurs(ApplyPasses(text, es), Pattern(es[j]))
    decreases |es|
  {
    var pat := Pattern(es[0]);
    var next := ReplaceAll(text, pat, [es[0].ch]);
    if j == 0 {
      ReplaceLeavesNoOccurrence(text, pat, es[0].ch, pat);
      PassesKeepAbsent(next, es[1..], pat);
    } else {
      assert Pattern(es[1..][j - 1]) == Pattern(es[j]);
      PassClearsPattern(next, es[1..], j - 1);
    }
  }

  /** The patterns of the table, spelled out. */
  lemma TablePatterns()
    ensures Pattern(Table[0]) == "&apos;" && Pattern(Table[1]) == "&amp;"
    ensures Pattern(Table[2]) == "&lt;" && Pattern(Table[3]) == "&gt;" && Pattern(Table[4]) == "&quot;"
  {
  }

  /** No pass from `j` on inserts a character of pattern `j`. */
  predicate KeepsOut(j: nat)
    requires j < |Table|
  {
    forall k :: j <= k < |Table| ==> Table[k].ch !in Pattern(Table[j])
  }

  /** The `lt`, `gt` and `quot` passes insert nothing their own or later patterns contain. */
  lemma MarkupKeptOut()
    ensures KeepsOut(2) && KeepsOut(3) && KeepsOut(4)
  {
    TablePatterns();
  }

  /** The `lt`, `gt` and `quot` passes each remove their pattern for good. */
  lemma TableClearsMarkup(text: string)
    ensures !Occurs(ApplyPasses(text, Table), "&lt;")
    ensures !Occurs(ApplyPasses(text, Table), "&gt;")
    ensures !Occurs(ApplyPasses(text, Table), "&quot;")
  {
    MarkupKeptOut();
    PassClearsPattern(text, Table, 2);
    PassClearsPattern(text, Table, 3);
    PassClearsPattern(text, Table, 4);
    TablePatterns();
  }

  /**
   `decodeHTMLEntities`: never lengthens the text, leaves text without `&`
   untouched, and leaves no `&lt;`, `&gt;` or `&quot;` behind.
   */
  function DecodeEntities(text: string): (r: string)
    ensures |r| <= |text|
    ensures '&' !in text ==> r == text
    ensures !Occurs(r, "&lt;") && !Occurs(r, "&gt;") && !Occurs(r, "&quot;")
  {
    TableClearsMarkup(text);
    ApplyPasses(text, Table)
  }

  /** A pass whose pattern starts the text, with no further `&` after it, replaces just that occurrence. */
  lemma ReplaceAtHead(s: string, pat: string, rep: string)
    requires |pat| > 0 && pat <= s && pat[0] !in s[|pat|..]
    ensures ReplaceAll(s, pat, rep) == rep + s[|pat|..]
  {
    NoOccurrenceWithoutFirstChar(s[|pat|..], pat);
  }

  /** A pass whose pattern does not start the text, with no further `&` after the first character, changes nothing. */
  lemma SkipAtHead(s: string, pat: string, rep: string)
    requires |pat| > 0 && |s| > 0 && !(pat <= s) && pat[0] !in s[1..]
    ensures ReplaceAll(s, pat, rep) == s
  {
    NoOccurrenceWithoutFirstChar(s[1..], pat);
    assert s == [s[0]] + s[1..];
  }

  /** The passes from `k` on, peeled one at a time. */
  lemma Peel(text: string, k: nat, next: string)
    requires k < |Table| && next == ReplaceAll(text, Pattern(Table[k]), [Table[k].ch])
    ensures ApplyPasses(text, Table[k..]) == ApplyPasses(next, Table[k + 1..])
  {
    assert Table[k..][1..] == Table[k + 1..];
  }

  /** The `gt` and `quot` passes leave `<` alone. */
  lemma LastPassesOnLessThan()
    ensures ApplyPasses("<", Table[3..]) == "<"
  {
    TablePatterns();
    calc {
      ApplyPasses("<", Table[3..]);
      { SkipAtHead("<", "&gt;", ">");
        Peel("<", 3, "<"); }
      ApplyPasses("<", Table[4..]);
      { SkipAtHead("<", "&quot;", "\"");
        Peel("<", 4, "<"); }
      ApplyPasses("<", Table[5..]);
    }
  }

  /** Because `amp` runs before `lt`, a doubly escaped `<` is fully decoded. */
  lemma DoublyEscapedLessThan()
    ensures DecodeEntities("&amp;lt;") == "<"
  {
    TablePatterns();
    calc {
      ApplyPasses("&amp;lt;", Table[0..]);
      { assert "&apos;"[2] != "&amp;lt;"[2];
        SkipAtHead("&amp;lt;", "&apos;", "'");
        Peel("&amp;lt;", 0, "&amp;lt;"); }
      ApplyPasses("&amp;lt;", Table[1..]);
      { ReplaceAtHead("&amp;lt;", "&amp;", "&");
        Peel("&amp;lt;", 1, "&lt;"); }
      ApplyPasses("&lt;", Table[2..]);
      { ReplaceAtHead("&lt;", "&lt;", "<");
        Peel("&lt;", 2, "<"); }
      ApplyPasses("<", Table[3..]);
      { LastPassesOnLessThan(); }
      "<";
    }
    assert Table[0..] == Table;
  }

  /** The `lt`, `gt` and `quot` passes leave `&apos;` alone. */
  lemma LastPassesOnApostrophe()
    ensures ApplyPasses("&apos;", Table[2..]) == "&apos;"
  {
    TablePatterns();
    calc {
      ApplyPasses("&apos;", Table[2..]);
      { assert "&lt;"[1] != "&apos;"[1];
        SkipAtHead("&apos;", "&lt;", "<");
        Peel("&apos;", 2, "&apos;"); }
      ApplyPasses("&apos;", Table[3..]);
      { assert "&gt;"[1] != "&apos;"[1];
        SkipAtHead("&apos;", "&gt;", ">");
        Peel("&apos;", 3, "&apos;"); }
      ApplyPasses("&apos;", Table[4..]);
      { assert "&quot;"[1] != "&apos;"[1];
        SkipAtHead("&apos;", "&quot;", "\"");
        Peel("&apos;", 4, "&apos;"); }
      ApplyPasses("&apos;", Table[5..]);
    }
  }

  /** Because `apos` runs before `amp`, a doubly escaped apostrophe is decoded one level only. */
  lemma DoublyEscapedApostrophe()
    ensures DecodeEntities("&amp;apos;") == "&apos;"
  {
    TablePatterns();
    calc {
      ApplyPasses("&amp;apos;", Table[0..]);
      { assert "&apos;"[2] != "&amp;apos;"[2];
        SkipAtHead("&amp;apos;", "&apos;", "'");
        Peel("&amp;apos;", 0, "&amp;apos;"); }
      ApplyPasses("&amp;apos;", Table[1..]);
      { ReplaceAtHead("&amp;apos;", "&amp;", "&");
        Peel("&amp;apos;", 1, "&apos;"); }
      ApplyPasses("&apos;", Table[2..]);
      { LastPassesOnApostrophe(); }
      "&apos;";
    }
    assert Table[0..] == Table;
  }

  /** The pass for entry `k` replaces a reference to it, standing alone among plain text, by its character. */
  lemma HitAt(a: string, b: string, k: nat)
    requires k < |Table| && '&' !in a && '&' !in b
    ensures ReplaceAll(a + Pattern(Table[k]) + b, Pattern(Table[k]), [Table[k].ch]) == a + [Table[k].ch] + b
  {
    var pat := Pattern(Table[k]);
    assert pat[0] == '&';
    forall j | 0 <= j < |a|
      ensures !(pat <= (a + pat + b)[j..])
    {
      assert (a + pat + b)[j..][0] == a[j];
    }
    ReplaceSplit(a, pat, [Table[k].ch], b);
    NoOccurrenceWithoutFirstChar(b, pat);
  }

  /** The pass for entry `k` leaves alone a text whose only `&` does not start its pattern. */
  lemma MissAt(a: string, rest: string, k: nat)
    requires k < |Table| && '&' !in a && |rest| > 0 && '&' !in rest[1..]
    requires !(Pattern(Table[k]) <= rest)
    ensures ReplaceAll(a + rest, Pattern(Table[k]), [Table[k].ch]) == a + rest
  {
    var pat := Pattern(Table[k]);
    assert pat[0] == '&';
    ReplaceAfterPlain(a, rest, pat, [Table[k].ch]);
    SkipAtHead(rest, pat, [Table[k].ch]);
  }

  /** Once no `&` is left, the remaining passes change nothing. */
  lemma Settled(t: string, k: nat)
    requires k <= |Table| && '&' !in t
    ensures ApplyPasses(t, Table[k..]) == t
  {
  }

  /** A lone `&apos;` among plain text decodes to an apostrophe and nothing else changes. */
  lemma DecodeApostrophe(a: string, b: string)
    requires '&' !in a && '&' !in b
    ensures DecodeEntities(a + "&apos;" + b) == a + "'" + b
  {
    TablePatterns();
    var t := a + "&apos;" + b;
    var u := a + "'" + b;
    HitAt(a, b, 0);
    Peel(t, 0, u);
    Settled(u, 1);
    assert Table[0..] == Table;
  }

  /** `&` followed by `b` starts a pattern `&name;` only if `b` starts with `name;`. */
  lemma AmpersandPrefix(name: string, b: string)
    requires "&" + name <= "&" + b
    ensures name <= b
  {
    forall m | 0 <= m < |name| ensures name[m] == b[m] {
      assert name[m] == ("&" + name)[m + 1] == ("&" + b)[m + 1] == b[m];
    }
  }

  /** After the `amp` pass, the `lt`, `gt` and `quot` passes leave a lone `&` alone. */
  lemma LastPassesOnAmpersand(a: string, b: string)
    requires '&' !in a && '&' !in b
    requires !("lt;" <= b) && !("gt;" <= b) && !("quot;" <= b)
    ensures ApplyPasses(a + "&" + b, Table[2..]) == a + "&" + b
  {
    TablePatterns();
    var u := a + "&" + b;
    var tail := "&" + b;
    assert u == a + tail && tail[1..] == b;
    if "&lt;" <= tail {
      AmpersandPrefix("lt;", b);
    }
    if "&gt;" <= tail {
      AmpersandPrefix("gt;", b);
    }
    if "&quot;" <= tail {
      AmpersandPrefix("quot;", b);
    }
    MissAt(a, tail, 2);
    Peel(u, 2, u);
    MissAt(a, tail, 3);
    Peel(u, 3, u);
    MissAt(a, tail, 4);
    Peel(u, 4, u);
  }

  /** A lone `&amp;` decodes to `&`, unless what follows would then spell `&lt;`, `&gt;` or `&quot;`. */
  lemma DecodeAmpersand(a: string, b: string)
    requires '&' !in a && '&' !in b
    requires !("lt;" <= b) && !("gt;" <= b) && !("quot;" <= b)
    ensures DecodeEntities(a + "&amp;" + b) == a + "&" + b
  {
    TablePatterns();
    var t := a + "&amp;" + b;
    var u := a + "&" + b;
    var rest := "&amp;" + b;
    assert t == a + rest && rest[1..] == "amp;" + b && rest[2] == 'm';
    MissAt(a, rest, 0);
    Peel(t, 0, t);
    HitAt(a, b, 1);
    Peel(t, 1, u);
    LastPassesOnAmpersand(a, b);
    assert Table[0..] == Table;
  }

  /** A lone `&lt;` among plain text decodes to `<` and nothing else changes. */
  lemma DecodeLessThan(a: string, b: string)
    requires '&' !in a && '&' !in b
    ensures DecodeEntities(a + "&lt;" + b) == a + "<" + b
  {
    TablePatterns();
    var t := a + "&lt;" + b;
    var u := a + "<" + b;
    var rest := "&lt;" + b;
    assert t == a + rest && rest[1..] == "lt;" + b && rest[1] == 'l';
    MissAt(a, rest, 0);
    Peel(t, 0, t);
    MissAt(a, rest, 1);
    Peel(t, 1, t);
    HitAt(a, b, 2);
    Peel(t, 2, u);
    Settled(u, 3);
    assert Table[0..] == Table;
  }

  /** A lone `&gt;` among plain text decodes to `>` and nothing else changes. */
  lemma DecodeGreaterThan(a: string, b: string)
    requires '&' !in a && '&' !in b
    ensures DecodeEntities(a + "&gt;" + b) == a + ">" + b
  {
    TablePatterns();
    var t := a + "&gt;" + b;
    var u := a + ">" + b;
    var rest := "&gt;" + b;
    assert t == a + rest && rest[1..] == "gt;" + b && rest[1] == 'g';
    MissAt(a, rest, 0);
    Peel(t, 0, t);
    MissAt(a, rest, 1);
    Peel(t, 1, t);
    MissAt(a, rest, 2);
    Peel(t, 2, t);
    HitAt(a, b, 3);
    Peel(t, 3, u);
    Settled(u, 4);
    assert Table[0..] == Table;
  }

  /** A lone `&quot;` among plain text decodes to `"` and nothing else changes. */
  lemma DecodeQuote(a: string, b: string)
    requires '&' !in a && '&' !in b
    ensures DecodeEntities(a + "&quot;" + b) == a + "\"" + b
  {
    TablePatterns();
    var t := a + "&quot;" + b;
    var u := a + "\"" + b;
    var rest := "&quot;" + b;
    assert t == a + rest && rest[1..] == "quot;" + b && rest[1] == 'q';
    MissAt(a, rest, 0);
    Peel(t, 0, t);
    MissAt(a, rest, 1);
    Peel(t, 1, t);
    MissAt(a, rest, 2);
    Peel(t, 2, t);
    MissAt(a, rest, 3);
    Peel(t, 3, t);
    HitAt(a, b, 4);
    Peel(t, 4, u);
    Settled(u, 5);
    assert Table[0..] == Table;
  }
}

=== FILE: episode_transcript.dfy ===
/**
 The transcript part of `episodeDataCallback`: dispatch on the body's format
 and hand back the normalised range.
 */
module EpisodeTranscript {
  import opened Transcript
  import AlignedFormat
  import OffsetFormat

  /**
   Normalises either raw format into the common range shape. Both formats
   resolve the window bounds the same way. Format A keeps exactly what the
   window selects; Format B returns its whole word list, placeholder first,
   with the paragraphs synthesised from it.
   */
  function Normalize(raw: RawTranscript, req: Request, strip: string -> string): (r: Range)
    ensures r.start == (if Truthy(req.start) then req.start.value else 0.0)
    ensures r.end == (if Truthy(req.end) then req.end.value else raw.duration)
    ensures raw.FormatA? ==> |r.words| <= |raw.words| && |r.paragraphs| <= |raw.paragraphs|
    ensures raw.FormatA? ==> forall k :: 0 <= k < |r.words| ==>
      (r.words[k].time.Millis? && r.start * 1000.0 <= r.words[k].time.ms as real <= r.end * 1000.0)
    ensures raw.FormatA? ==>
      AlignedFormat.Selects(r, raw.words, raw.paragraphs, AlignedFormat.ResolveWindow(req, raw.duration), strip)
    ensures raw.FormatB? ==> |r.words| >= 1 && r.words[0] == OffsetFormat.Placeholder
    ensures raw.FormatB? ==> |r.paragraphs| >= 1 && r.paragraphs[0] == Millis(0)
    ensures raw.FormatB? ==> r.words == OffsetFormat.WordList(raw.text, raw.offsetWords, strip)
    ensures raw.FormatB? ==> r.paragraphs == OffsetFormat.Paragraphs(r.words)
  {
    match raw
    case FormatA(words, paragraphs, duration) =>
      AlignedFormat.NormalizeAligned(words, paragraphs, duration, req, strip)
    case FormatB(text, offsetWords, duration) =>
      OffsetFormat.NormalizeOffset(text, offsetWords, duration, req, strip)
  }
}

=== FILE: offset_format.dfy ===
/**
 Format B (lines 104-178 of getTranscript.js): a flat transcript text plus
 words given as character offsets, only some of which carry an alignment
 time. The normaliser estimates the missing times, cuts each word's text out
 of the transcript, drops empty words behind a placeholder, and synthesises
 paragraph starts from terminal punctuation.
 */
module OffsetFormat {
  import opened Wrappers
  import opened Seqs
  import opened JsStrings
  import opened Entities
  import opened Transcript

  // ---------------------------------------------------------------------------
  // Timestamps (lines 126, 139-147)
  // ---------------------------------------------------------------------------

  /** A word is anchored when it carries an alignment start that is truthy: an anchor of 0 counts as missing. */
  predicate Anchored(w: OffsetWord) {
    w.start.Some? && w.start.value != 0
  }

  /** One step of the fold: the anchor if there is one, else the last timestamp plus one. */
  function NextStamp(w: OffsetWord, last: Stamp): Stamp {
    if Anchored(w) then Millis(w.start.value)
    else match last
      case Millis(t) => Millis(t + 1)
      case NaN => NaN
  }

  /**
   The `map` with the running `lastValidTimestamp`, started from `last`:
   every anchor is taken as is, and once the state is a number every
   stamp is a number.
   */
  function EstimateFrom(words: seq<OffsetWord>, last: Stamp): (r: seq<Stamp>)
    ensures |r| == |words|
    ensures forall j :: 0 <= j < |words| && Anchored(words[j]) ==> r[j] == Millis(words[j].start.value)
    ensures last.Millis? ==> forall j :: 0 <= j < |r| ==> r[j].Millis?
    decreases |words|
  {
    if |words| == 0 then []
    else
      var t := NextStamp(words[0], last);
      var rest := EstimateFrom(words[1..], t);
      assert forall j :: 1 <= j < |words| ==> words[j] == words[1..][j - 1];
      [t] + rest
  }

  /** `lastValidTimestamp` starts `undefined`, so an estimate before any anchor is `NaN`. */
  function Timestamps(words: seq<OffsetWord>): (r: seq<Stamp>)
    ensures |r| == |words|
  {
    EstimateFrom(words, NaN)
  }

  /** The most recent anchored position at or before `j`. */
  function LastAnchor(words: seq<OffsetWord>, j: nat): (r: Option<nat>)
    requires j < |words|
    ensures r.Some? ==> (r.value <= j && Anchored(words[r.value])
                         && forall m :: r.value < m <= j ==> !Anchored(words[m]))
    ensures r.None? ==> forall m :: 0 <= m <= j ==> !Anchored(words[m])
    decreases j
  {
    if Anchored(words[j]) then Some(j)
    else if j == 0 then None
    else LastAnchor(words, j - 1)
  }

  /** `n` estimation steps from `s`. */
  function Advance(s: Stamp, n: nat): Stamp {
    match s
    case Millis(t) => Millis(t + n)
    case NaN => NaN
  }

  /**
   The timestamp of position `j` in closed form: the last anchor at or before
   `j` plus the distance to it, or, with no anchor so far, `j + 1` steps
   from the initial state.
   */
  ghost function ClosedForm(words: seq<OffsetWord>, seed: Stamp, j: nat): Stamp
    requires j < |words|
  {
    match LastAnchor(words, j)
    case Some(k) => Millis(words[k].start.value + (j - k))
    case None => Advance(seed, j + 1)
  }

  /** Dropping the first word shifts every later anchor position down by one. */
  lemma {:induction false} LastAnchorShift(words: seq<OffsetWord>, j: nat)
    requires 0 < j < |words|
    ensures LastAnchor(words[1..], j - 1) ==
      match LastAnchor(words, j)
      case Some(k) => if k == 0 then None else Some(k - 1)
      case None => None
    decreases j
  {
    assert words[1..][j - 1] == words[j];
    if !Anchored(words[j]) && j > 1 {
      LastAnchorShift(words, j - 1);
    }
  }

  /** The fold computes the closed form at every position. */
  lemma {:induction false} EstimateClosedForm(words: seq<OffsetWord>, seed: Stamp)
    ensures forall j :: 0 <= j < |words| ==> EstimateFrom(words, seed)[j] == ClosedForm(words, seed, j)
    decreases |words|
  {
    if |words| > 0 {
      var t := NextStamp(words[0], seed);
      var tail := words[1..];
      EstimateClosedForm(tail, t);
      forall j | 0 <= j < |words| ensures EstimateFrom(words, seed)[j] == ClosedForm(words, seed, j) {
        if j > 0 {
          assert EstimateFrom(words, seed)[j] == EstimateFrom(tail, t)[j - 1];
          LastAnchorShift(words, j);
        }
      }
    }
  }

  /** Before the first anchor every timestamp is `NaN` (`undefined + 1` and onwards). */
  lemma NaNUntilFirstAnchor(words: seq<OffsetWord>, j: nat)
    requires j < |words|
    requires forall m :: 0 <= m <= j ==> !Anchored(words[m])
    ensures Timestamps(words)[j] == NaN
  {
    EstimateClosedForm(words, NaN);
  }

  /** No anchors on positions `i+1..j` means the last anchor seen at `j` is the one seen at `i`. */
  lemma {:induction false} LastAnchorStable(words: seq<OffsetWord>, i: nat, j: nat)
    requires i <= j < |words|
    requires forall m :: i < m <= j ==> !Anchored(words[m])
    ensures LastAnchor(words, j) == LastAnchor(words, i)
    decreases j
  {
    if i < j {
      LastAnchorStable(words, i, j - 1);
    }
  }

  /**
   Between anchors the estimates count up by one per word — including words
   that will later be dropped for empty text, since estimation runs first.
   */
  lemma RunBetweenAnchors(words: seq<OffsetWord>, i: nat, j: nat, t: int)
    requires i <= j < |words|
    requires Timestamps(words)[i] == Millis(t)
    requires forall m :: i < m <= j ==> !Anchored(words[m])
    ensures Timestamps(words)[j] == Millis(t + (j - i))
  {
    EstimateClosedForm(words, NaN);
    LastAnchorStable(words, i, j);
  }

  /**
   Anchors leave room for the estimates between them: each anchor is at least
   as many milliseconds after an earlier one as there are words between them.
   */
  ghost predicate AnchorsSpaced(words: seq<OffsetWord>) {
    forall a, b :: 0 <= a < b < |words| && Anchored(words[a]) && Anchored(words[b]) ==>
      words[b].start.value - words[a].start.value >= b - a
  }

  /** `a` is a number strictly below the number `b`. */
  predicate StampBefore(a: Stamp, b: Stamp) {
    a.Millis? && b.Millis? && a.ms < b.ms
  }

  /** With the first word anchored and spaced anchors, all timestamps are numbers and strictly increase. */
  lemma TimestampsIncrease(words: seq<OffsetWord>)
    requires |words| > 0 && Anchored(words[0])
    requires AnchorsSpaced(words)
    ensures forall i, j :: 0 <= i < j < |words| ==> StampBefore(Timestamps(words)[i], Timestamps(words)[j])
  {
    var ts := Timestamps(words);
    EstimateClosedForm(words, NaN);
    forall i, j | 0 <= i < j < |words| ensures StampBefore(ts[i], ts[j]) {
      var ki := LastAnchor(words, i);
      var kj := LastAnchor(words, j);
      assert ki.Some? && kj.Some?;
      if kj.value <= i {
        LastAnchorStable(words, kj.value, i);
      }
    }
  }

  // ---------------------------------------------------------------------------
  // Text spans (lines 128-136, 147)
  // ---------------------------------------------------------------------------

  /**
   Where word `i`'s text ends: the next word's `startOffset`; for the last
   word its own `endOffset`; `endOffset + 1` if the next word has no
   `startOffset`.
   */
  function Boundary(words: seq<OffsetWord>, i: nat): int
    requires i < |words|
  {
    if i + 1 == |words| then words[i].endOffset
    else match words[i + 1].startOffset
      case Some(o) => o
      case None => words[i].endOffset + 1
  }

  /**
   The word's raw text: the piece of the transcript from its start offset up
   to its boundary. A word without a start offset passes an undefined start
   and a `NaN` length to `substr`; both convert to 0, so the piece is empty.
   */
  function RawSpan(text: string, words: seq<OffsetWord>, i: nat): (r: string)
    requires i < |words|
    ensures words[i].startOffset.None? ==> r == ""
    ensures words[i].startOffset.Some? && 0 <= words[i].startOffset.value <= Boundary(words, i) <= |text|
      ==> r == text[words[i].startOffset.value..Boundary(words, i)]
  {
    match words[i].startOffset
    case Some(o) => Substr(text, o, Boundary(words, i) - o)
    case None => Substr(text, 0, 0)
  }

  /** Each word's cleaned text: decode entities, trim, then strip tags (keeping `&`). */
  function WordText(text: string, words: seq<OffsetWord>, i: nat, strip: string -> string): string
    requires i < |words|
  {
    strip(Trim(DecodeEntities(RawSpan(text, words, i))))
  }

  function RawSpans(text: string, words: seq<OffsetWord>): (r: seq<string>)
    ensures |r| == |words|
  {
    seq(|words|, i requires 0 <= i < |words| => RawSpan(text, words, i))
  }

  /** Concatenation of a list of strings. */
  function Concat(ss: seq<string>): string
    decreases |ss|
  {
    if |ss| == 0 then "" else ss[0] + Concat(ss[1..])
  }

  /** Offsets as a well-formed aligner produces them: present, ascending, inside the text. */
  predicate TilingOffsets(text: string, words: seq<OffsetWord>) {
    && |words| > 0
    && words[|words| - 1].endOffset <= |text|
    && (forall i :: 0 <= i < |words| ==>
          (words[i].startOffset.Some? && 0 <= words[i].startOffset.value <= words[|words| - 1].endOffset))
    && (forall i :: 0 <= i < |words| - 1 ==> words[i].startOffset.value <= words[i + 1].startOffset.value)
  }

  lemma {:induction false} SpansTileFrom(text: string, words: seq<OffsetWord>, k: nat)
    requires TilingOffsets(text, words) && k < |words|
    ensures Concat(RawSpans(text, words)[k..]) == text[words[k].startOffset.value..words[|words| - 1].endOffset]
    decreases |words| - k
  {
    var spans := RawSpans(text, words);
    var end := words[|words| - 1].endOffset;
    var o := words[k].startOffset.value;
    assert Concat(spans[k..]) == spans[k] + Concat(spans[k..][1..]);
    if k == |words| - 1 {
      assert spans[k..][1..] == [];
      assert spans[k] == text[o..end];
    } else {
      SpansTileFrom(text, words, k + 1);
      assert spans[k..][1..] == spans[k + 1..];
      var o' := words[k + 1].startOffset.value;
      assert spans[k] == text[o..o'];
      assert text[o..o'] + text[o'..end] == text[o..end];
    }
  }

  /**
   With well-formed offsets the raw spans partition the covered text: their
   concatenation is exactly the transcript from the first word's start to the
   last word's end, so no character is lost or repeated between words.
   */
  lemma SpansTileTranscript(text: string, words: seq<OffsetWord>)
    requires TilingOffsets(text, words)
    ensures Concat(RawSpans(text, words))
         == text[words[0].startOffset.value..words[|words| - 1].endOffset]
  {
    SpansTileFrom(text, words, 0);
    assert RawSpans(text, words)[0..] == RawSpans(text, words);
  }

  // ---------------------------------------------------------------------------
  // The word list (lines 127-151)
  // ---------------------------------------------------------------------------

  /** `['0', '']`, prepended for the client's reduce. */
  const Placeholder := TimedWord(Millis(0), "")

  function HasText(w: TimedWord): bool {
    w.text != ""
  }

  /**
   The `map` of lines 127-148: one entry per input word. Its time is the last
   anchor at or before it plus the distance to that anchor (`NaN` before any
   anchor); its text is the transcript from its `startOffset` to the next
   word's start, decoded, trimmed and stripped, or `strip("")` when it has no
   `startOffset`.
   */
  function Annotated(text: string, words: seq<OffsetWord>, strip: string -> string): (r: seq<TimedWord>)
    ensures |r| == |words|
    ensures forall i :: 0 <= i < |words| ==> r[i].time == ClosedForm(words, NaN, i)
    ensures forall i :: 0 <= i < |words| && words[i].startOffset.Some?
                        && 0 <= words[i].startOffset.value <= Boundary(words, i) <= |text| ==>
      r[i].text == strip(Trim(DecodeEntities(text[words[i].startOffset.value..Boundary(words, i)])))
    ensures forall i :: 0 <= i < |words| && words[i].startOffset.None? ==> r[i].text == strip("")
  {
    var stamps := Timestamps(words);
    EstimateClosedForm(words, NaN);
    assert DecodeEntities("") == "" && Trim("") == "";
    seq(|words|, i requires 0 <= i < |words| => TimedWord(stamps[i], WordText(text, words, i, strip)))
  }

  /** The `filter` of line 151: the annotated words whose cleaned text is non-empty. */
  function Spoken(annotated: seq<TimedWord>): (r: seq<TimedWord>)
    ensures forall k :: 0 <= k < |r| ==> r[k].text != ""
  {
    var kept := Filter(annotated, HasText);
    assert forall k :: 0 <= k < |kept| ==> HasText(kept[k]);
    kept
  }

  /**
   The output word list: the placeholder first, then the annotated words with
   non-empty text. No time window is applied.
   */
  function WordList(text: string, words: seq<OffsetWord>, strip: string -> string): (r: seq<TimedWord>)
    ensures |r| >= 1 && r[0] == Placeholder
    ensures forall k :: 1 <= k < |r| ==> r[k].text != ""
  {
    var kept := Spoken(Annotated(text, words, strip));
    assert ([Placeholder] + kept)[1..] == kept;
    [Placeholder] + kept
  }

  /**
   The output word list: the placeholder first, then, in input order, every
   word whose cleaned text is non-empty and no other. No time window is applied.
   */
  lemma WordListContents(text: string, words: seq<OffsetWord>, strip: string -> string)
    ensures |WordList(text, words, strip)| == 1 + CountWhere(Annotated(text, words, strip), HasText)
    ensures Subseq(WordList(text, words, strip)[1..], Annotated(text, words, strip))
    ensures forall i :: 0 <= i < |words| && WordText(text, words, i, strip) != "" ==>
      Annotated(text, words, strip)[i] in WordList(text, words, strip)[1..]
  {
    var all := Annotated(text, words, strip);
    var kept := WordList(text, words, strip)[1..];
    assert kept == Spoken(all) == Filter(all, HasText);
    forall i | 0 <= i < |words| && WordText(text, words, i, strip) != ""
      ensures TimedWord(Timestamps(words)[i], WordText(text, words, i, strip)) in kept
    {
      assert HasText(all[i]);
      assert all[i] in all;
    }
  }

  /** `a` comes strictly earlier than `b`, both with numeric times. */
  function Earlier(a: TimedWord, b: TimedWord): bool {
    StampBefore(a.time, b.time)
  }

  /** When the timestamps increase, so do the times of the words that survive the filter. */
  lemma WordTimesIncrease(text: string, words: seq<OffsetWord>, strip: string -> string)
    requires |words| > 0 && Anchored(words[0])
    requires AnchorsSpaced(words)
    ensures Ordered(WordList(text, words, strip)[1..], Earlier)
  {
    var all := Annotated(text, words, strip);
    TimestampsIncrease(words);
    assert Ordered(all, Earlier);
    SubseqOrdered(WordList(text, words, strip)[1..], all, Earlier);
  }

  // ---------------------------------------------------------------------------
  // Paragraphs (lines 153-157)
  // ---------------------------------------------------------------------------

  predicate IsTerminalMark(c: char) {
    c == '.' || c == '?' || c == '!'
  }

  /** The text ends in `.`, `?` or `!`, possibly followed by one `"`. */
  predicate EndsTerminal(t: string) {
    || (|t| >= 1 && IsTerminalMark(t[|t| - 1]))
    || (|t| >= 2 && t[|t| - 1] == '"' && IsTerminalMark(t[|t| - 2]))
  }

  /** The strings one alternative of `/(\?$|\.$|\!$|(\.|\?|\!)\"$)$/` matches. */
  predicate IsTerminalSuffix(u: string) {
    u == "?" || u == "." || u == "!" || u == ".\"" || u == "?\"" || u == "!\""
  }

  /** The regular expression matches when some suffix of the text is one of its alternatives. */
  ghost predicate RegexMatches(t: string) {
    exists k :: 0 <= k <= |t| && IsTerminalSuffix(t[k..])
  }

  /** `EndsTerminal` decides exactly what the regular expression matches. */
  lemma EndsTerminalIsRegex(t: string)
    ensures EndsTerminal(t) <==> RegexMatches(t)
  {
    if EndsTerminal(t) {
      if |t| >= 1 && IsTerminalMark(t[|t| - 1]) {
        assert t[|t| - 1..] == [t[|t| - 1]];
        assert IsTerminalSuffix(t[|t| - 1..]);
      } else {
        assert t[|t| - 2..] == [t[|t| - 2], t[|t| - 1]];
        assert IsTerminalSuffix(t[|t| - 2..]);
      }
    }
    if RegexMatches(t) {
      var k :| 0 <= k <= |t| && IsTerminalSuffix(t[k..]);
      assert t[k..][|t[k..]| - 1] == t[|t| - 1];
      if |t[k..]| == 2 {
        assert t[k..][0] == t[|t| - 2];
      }
    }
  }

  /** A word that starts a synthesised paragraph: terminal punctuation and more than three characters. */
  function MarksParagraph(w: TimedWord): bool {
    EndsTerminal(w.text) && |w.text| > 3
  }

  function TimeOf(w: TimedWord): Stamp {
    w.time
  }

  /**
   Paragraph starts: 0 first, then, in order, the time of every word that
   marks a paragraph, and nothing else.
   */
  function Paragraphs(ws: seq<TimedWord>): (r: seq<Stamp>)
    ensures |r| >= 1 && r[0] == Millis(0)
    ensures |r| == 1 + CountWhere(ws, MarksParagraph)
    ensures forall k :: 1 <= k < |r| ==>
      exists i :: 0 <= i < |ws| && MarksParagraph(ws[i]) && r[k] == ws[i].time
    ensures forall i :: 0 <= i < |ws| && MarksParagraph(ws[i]) ==> ws[i].time in r[1..]
    ensures Subseq(r[1..], Map(ws, TimeOf))
  {
    var kept := Filter(ws, MarksParagraph);
    var r := [Millis(0)] + Map(kept, TimeOf);
    assert r[1..] == Map(kept, TimeOf);
    FilterMapSound(ws, MarksParagraph, TimeOf);
    FilterMapComplete(ws, MarksParagraph, TimeOf);
    SubseqMap(kept, ws, TimeOf);
    r
  }

  /** The placeholder never marks a paragraph, so the leading 0 is not repeated because of it. */
  lemma PlaceholderNeverMarks(text: string, words: seq<OffsetWord>, strip: string -> string)
    ensures Filter(WordList(text, words, strip), MarksParagraph)
         == Filter(WordList(text, words, strip)[1..], MarksParagraph)
  {
    var ws := WordList(text, words, strip);
    assert !MarksParagraph(ws[0]);
  }

  // ---------------------------------------------------------------------------
  // The branch as a whole
  // ---------------------------------------------------------------------------

  /**
   The Format B branch of `episodeDataCallback`, without the metadata
   envelope. The window (lines 121-124) only feeds `range.start`/`range.end`.
   */
  function NormalizeOffset(text: string, words: seq<OffsetWord>, duration: real,
                           req: Request, strip: string -> string): (r: Range)
    ensures r.start == (if Truthy(req.start) then req.start.value else 0.0)
    ensures r.end == (if Truthy(req.end) then req.end.value else duration)
    ensures |r.words| >= 1 && r.words[0] == Placeholder
    ensures |r.paragraphs| >= 1 && r.paragraphs[0] == Millis(0)
    ensures |r.paragraphs| <= |r.words|
    ensures r.words == WordList(text, words, strip)
    ensures r.paragraphs == Paragraphs(r.words)
  {
    var endTime := OrElse(req.end, duration);
    var ws := WordList(text, words, strip);
    assert CountWhere(ws, MarksParagraph) == CountWhere(ws[1..], MarksParagraph);
    assert CountWhere(ws[1..], MarksParagraph) <= |ws[1..]| by {
      assert |Filter(ws[1..], MarksParagraph)| <= |ws[1..]|;
    }
    Range(OrElse(req.start, 0.0), NumOr(endTime, duration), ws, Paragraphs(ws))
  }

  /** The requested window filters nothing in Format B. */
  lemma WindowDoesNotFilter(text: string, words: seq<OffsetWord>, duration: real,
                            req1: Request, req2: Request, strip: string -> string)
    ensures NormalizeOffset(text, words, duration, req1, strip).words
         == NormalizeOffset(text, words, duration, req2, strip).words
    ensures NormalizeOffset(text, words, duration, req1, strip).paragraphs
         == NormalizeOffset(text, words, duration, req2, strip).paragraphs
  {
  }

  // ---------------------------------------------------------------------------
  // A worked example
  // ---------------------------------------------------------------------------

  /** Four words over "Hi there. Go now!"; the first carries `start: 0`, the third `start: 1` (second). */
  const ExampleText := "Hi there. Go now!"
  const ExampleWords := [
    OffsetWord(Some(0), 2, Some(0)),
    OffsetWord(Some(3), 8, None),
    OffsetWord(Some(10), 12, Some(1000)),
    OffsetWord(Some(13), 16, None)
  ]

  /**
   `start: 0` is falsy, so the first two words get `NaN`; estimation resumes
   from the anchor at 1000 ms.
   */
  lemma ExampleTimestamps()
    ensures Timestamps(ExampleWords) == [NaN, NaN, Millis(1000), Millis(1001)]
  {
    var ws := ExampleWords;
    assert ws[1..][1..] == ws[2..];
    assert ws[2..][1..] == ws[3..];
    assert ws[3..][1..] == [];
  }

  /**
   Each span runs to the next word's start, so the separating blanks stay
   with the word before (and are trimmed later); the last word stops at its
   own `endOffset`, which here leaves out the final `!`.
   */
  lemma ExampleSpans()
    ensures RawSpans(ExampleText, ExampleWords) == ["Hi ", "there. ", "Go ", "now"]
  {
    var t := ExampleText;
    var ws := ExampleWords;
    assert |t| == 17;
    assert Boundary(ws, 0) == 3 && Boundary(ws, 1) == 10 && Boundary(ws, 2) == 13 && Boundary(ws, 3) == 16;
    assert RawSpan(t, ws, 0) == t[0..3];
    assert RawSpan(t, ws, 1) == t[3..10];
    assert RawSpan(t, ws, 2) == t[10..13];
    assert RawSpan(t, ws, 3) == t[13..16];
    assert t[0..3] == "Hi ";
    assert t[3..10] == "there. ";
    assert t[10..13] == "Go ";
    assert t[13..16] == "now";
  }
}

=== FILE: seqs.dfy ===
/**
 Sequence combinators that stand for JavaScript's `Array.prototype.filter` and
 `Array.prototype.map`, with the facts about them that the transcript
 normalisers rely on: a filter keeps exactly the selected elements, in order.
 */
module Seqs {

  /** `a` can be obtained from `b` by deleting elements (order is kept). */
  ghost predicate Subseq<T>(a: seq<T>, b: seq<T>)
    decreases |b|
  {
    |a| == 0 || (|b| > 0 && ((a[0] == b[0] && Subseq(a[1..], b[1..])) || Subseq(a, b[1..])))
  }

  /** Every pair of positions `i < j` of `xs` is related by `lt`. */
  ghost predicate Ordered<T>(xs: seq<T>, lt: (T, T) -> bool) {
    forall i, j :: 0 <= i < j < |xs| ==> lt(xs[i], xs[j])
  }

  /** Number of elements of `xs` satisfying `p`, counted independently of `Filter`. */
  function CountWhere<T>(xs: seq<T>, p: T -> bool): nat
    decreases |xs|
  {
    if |xs| == 0 then 0
    else (if p(xs[0]) then 1 else 0) + CountWhere(xs[1..], p)
  }

  /** `xs.filter(p)`: the elements of `xs` satisfying `p`, in their original order. */
  function Filter<T(!new)>(xs: seq<T>, p: T -> bool): (r: seq<T>)
    ensures |r| == CountWhere(xs, p) && |r| <= |xs|
    ensures forall i :: 0 <= i < |r| ==> p(r[i])
    ensures forall x :: x in r <==> x in xs && p(x)
    ensures Subseq(r, xs)
    decreases |xs|
  {
    if |xs| == 0 then []
    else
      var rest := Filter(xs[1..], p);
      assert xs == [xs[0]] + xs[1..];
      if p(xs[0]) then
        assert ([xs[0]] + rest)[1..] == rest;
        [xs[0]] + rest
      else rest
  }

  /** `xs.map(f)`. */
  function Map<A, B>(xs: seq<A>, f: A -> B): (r: seq<B>)
    ensures |r| == |xs|
    ensures forall i :: 0 <= i < |xs| ==> r[i] == f(xs[i])
    decreases |xs|
  {
    if |xs| == 0 then [] else [f(xs[0])] + Map(xs[1..], f)
  }

  /** Everything in a subsequence occurs in the sequence it was taken from. */
  lemma {:induction false} SubseqMembers<T>(a: seq<T>, b: seq<T>)
    requires Subseq(a, b)
    ensures forall x :: x in a ==> x in b
    decreases |b|
  {
    if |a| == 0 {
    } else if a[0] == b[0] && Subseq(a[1..], b[1..]) {
      SubseqMembers(a[1..], b[1..]);
      forall x | x in a ensures x in b {
        if x != a[0] {
          assert x in a[1..];
        }
      }
    } else {
      SubseqMembers(a, b[1..]);
    }
  }

  /** Deleting elements keeps any pairwise ordering the sequence had. */
  lemma {:induction false} SubseqOrdered<T>(a: seq<T>, b: seq<T>, lt: (T, T) -> bool)
    requires Subseq(a, b)
    requires Ordered(b, lt)
    ensures Ordered(a, lt)
    decreases |b|
  {
    if |a| == 0 {
    } else if a[0] == b[0] && Subseq(a[1..], b[1..]) {
      SubseqOrdered(a[1..], b[1..], lt);
      SubseqMembers(a[1..], b[1..]);
      forall i, j | 0 <= i < j < |a| ensures lt(a[i], a[j]) {
        if i == 0 {
          assert a[j] == a[1..][j - 1];
          assert a[j] in b[1..];
          var m :| 0 <= m < |b[1..]| && b[1..][m] == a[j];
          assert b[m + 1] == a[j];
        } else {
          assert a[i] == a[1..][i - 1] && a[j] == a[1..][j - 1];
        }
      }
    } else {
      SubseqOrdered(a, b[1..], lt);
    }
  }

  /** Mapping both sides keeps the subsequence relation. */
  lemma {:induction false} SubseqMap<A, B>(a: seq<A>, b: seq<A>, f: A -> B)
    requires Subseq(a, b)
    ensures Subseq(Map(a, f), Map(b, f))
    decreases |b|
  {
    if |a| == 0 {
    } else if a[0] == b[0] && Subseq(a[1..], b[1..]) {
      SubseqMap(a[1..], b[1..], f);
      assert Map(a, f)[1..] == Map(a[1..], f);
      assert Map(b, f)[1..] == Map(b[1..], f);
    } else {
      SubseqMap(a, b[1..], f);
      assert Map(b, f)[1..] == Map(b[1..], f);
    }
  }

  /** Every element of a filtered-then-mapped sequence is the image of a selected element. */
  lemma FilterMapSound<A(!new), B>(xs: seq<A>, p: A -> bool, f: A -> B)
    ensures forall k :: 0 <= k < |Map(Filter(xs, p), f)| ==>
      exists i :: 0 <= i < |xs| && p(xs[i]) && Map(Filter(xs, p), f)[k] == f(xs[i])
  {
    var kept := Filter(xs, p);
    forall k | 0 <= k < |kept|
      ensures exists i :: 0 <= i < |xs| && p(xs[i]) && Map(kept, f)[k] == f(xs[i])
    {
      assert kept[k] in kept;
      var i :| 0 <= i < |xs| && xs[i] == kept[k];
    }
  }

  /** Every selected element's image occurs in the filtered-then-mapped sequence. */
  lemma FilterMapComplete<A(!new), B>(xs: seq<A>, p: A -> bool, f: A -> B)
    ensures forall i :: 0 <= i < |xs| && p(xs[i]) ==> f(xs[i]) in Map(Filter(xs, p), f)
  {
    var kept := Filter(xs, p);
    forall i | 0 <= i < |xs| && p(xs[i]) ensures f(xs[i]) in Map(kept, f) {
      assert xs[i] in kept;
      var k :| 0 <= k < |kept| && kept[k] == xs[i];
      assert Map(kept, f)[k] == f(xs[i]);
    }
  }

  /** A filter that every element passes is the identity. */
  lemma {:induction false} FilterAll<T(!new)>(xs: seq<T>, p: T -> bool)
    requires forall i :: 0 <= i < |xs| ==> p(xs[i])
    ensures Filter(xs, p) == xs
    decreases |xs|
  {
    if |xs| > 0 {
      FilterAll(xs[1..], p);
    }
  }

  /** Two predicates that agree on every element select the same elements. */
  lemma {:induction false} FilterCongruent<T(!new)>(xs: seq<T>, p: T -> bool, q: T -> bool)
    requires forall i :: 0 <= i < |xs| ==> (p(xs[i]) <==> q(xs[i]))
    ensures Filter(xs, p) == Filter(xs, q)
    decreases |xs|
  {
    if |xs| > 0 {
      FilterCongruent(xs[1..], p, q);
    }
  }
}

=== FILE: strings.dfy ===
/**
 The JavaScript string primitives the normalisers use: a global literal
 `replace`, `substr` with its argument clamping, and `trim`.
 Strings are sequences of characters; JavaScript's UTF-16 code units are not
 distinguished from characters here.
 */
module JsStrings {

  /** `pat` occurs somewhere in `s`. */
  predicate Occurs(s: string, pat: string)
    decreases |s|
  {
    pat <= s || (|s| > 0 && Occurs(s[1..], pat))
  }

  /** An occurrence in a suffix is an occurrence in the whole string. */
  lemma {:induction false} OccursInSuffix(s: string, k: nat, pat: string)
    requires k <= |s|
    requires Occurs(s[k..], pat)
    ensures Occurs(s, pat)
    decreases k
  {
    if k > 0 {
      assert s[1..][k - 1..] == s[k..];
      OccursInSuffix(s[1..], k - 1, pat);
    }
  }

  /** A non-empty pattern whose first character is absent cannot occur. */
  lemma {:induction false} NoOccurrenceWithoutFirstChar(s: string, pat: string)
    requires |pat| > 0 && pat[0] !in s
    ensures !Occurs(s, pat)
    decreases |s|
  {
    if |s| > 0 {
      assert s[1..] == s[1..];
      assert forall c :: c in s[1..] ==> c in s;
      NoOccurrenceWithoutFirstChar(s[1..], pat);
    }
  }

  /**
   `s.replace(new RegExp(pat, 'g'), rep)` for a pattern without regular
   expression metacharacters: a left-to-right scan that replaces every
   non-overlapping occurrence of `pat`.
   */
  function ReplaceAll(s: string, pat: string, rep: string): (r: string)
    requires |pat| > 0
    ensures |rep| <= |pat| ==> |r| <= |s|
    ensures !Occurs(s, pat) ==> r == s
    decreases |s|
  {
    if |s| == 0 then ""
    else if pat <= s then rep + ReplaceAll(s[|pat|..], pat, rep)
    else
      assert s == [s[0]] + s[1..];
      [s[0]] + ReplaceAll(s[1..], pat, rep)
  }

  /** Text in which no occurrence of the pattern starts passes through a replace unchanged. */
  lemma {:induction false} ReplaceAfterClear(a: string, s: string, pat: string, rep: string)
    requires |pat| > 0
    requires forall k :: 0 <= k < |a| ==> !(pat <= (a + s)[k..])
    ensures ReplaceAll(a + s, pat, rep) == a + ReplaceAll(s, pat, rep)
    decreases |a|
  {
    if |a| == 0 {
      assert a + s == s;
    } else {
      assert (a + s)[0..] == a + s;
      assert (a + s)[0] == a[0];
      assert (a + s)[1..] == a[1..] + s;
      forall k | 0 <= k < |a[1..]|
        ensures !(pat <= (a[1..] + s)[k..])
      {
        assert (a[1..] + s)[k..] == (a + s)[k + 1..];
      }
      ReplaceAfterClear(a[1..], s, pat, rep);
      assert a == [a[0]] + a[1..];
    }
  }

  /** Text without the pattern's first character passes through a replace unchanged. */
  lemma ReplaceAfterPlain(a: string, s: string, pat: string, rep: string)
    requires |pat| > 0 && pat[0] !in a
    ensures ReplaceAll(a + s, pat, rep) == a + ReplaceAll(s, pat, rep)
  {
    forall k | 0 <= k < |a|
      ensures !(pat <= (a + s)[k..])
    {
      assert (a + s)[k..][0] == a[k];
    }
    ReplaceAfterClear(a, s, pat, rep);
  }

  /**
   The first occurrence of the pattern is replaced by `rep`, the text before
   it is kept, and the scan resumes right after it.
   */
  lemma ReplaceSplit(a: string, pat: string, rep: string, b: string)
    requires |pat| > 0
    requires forall k :: 0 <= k < |a| ==> !(pat <= (a + pat + b)[k..])
    ensures ReplaceAll(a + pat + b, pat, rep) == a + rep + ReplaceAll(b, pat, rep)
  {
    assert a + pat + b == a + (pat + b);
    ReplaceAfterClear(a, pat + b, pat, rep);
    assert pat <= pat + b && (pat + b)[|pat|..] == b;
  }

  /** A stray first character of the pattern before an occurrence is kept, and the occurrence is still replaced. */
  lemma StrayFirstCharKept()
    ensures ReplaceAll("A&&amp;", "&amp;", "&") == "A&&"
  {
    var a, pat := "A&", "&amp;";
    var t := a + pat + "";
    assert t == "A&&amp;";
    assert t[0..][0] != pat[0];
    assert t[1..][1] != pat[1];
    ReplaceSplit(a, pat, "&", "");
  }

  /** A prefix of a replacement's result that avoids the inserted character was already a prefix of the input. */
  lemma {:induction false} PrefixSurvivesReplace(t: string, pat: string, c: char, q: string)
    requires |pat| > 0 && c !in q
    requires q <= ReplaceAll(t, pat, [c])
    ensures q <= t
    decreases |t|
  {
    if |t| > 0 && pat <= t {
      assert ReplaceAll(t, pat, [c]) == [c] + ReplaceAll(t[|pat|..], pat, [c]);
      assert ReplaceAll(t, pat, [c])[0] == c;
    }
    if |q| > 0 {
      assert q[0] == ReplaceAll(t, pat, [c])[0];
      assert q[0] != c;
    }
    if |q| == 0 || |t| == 0 {
    } else if pat <= t {
      assert false;
    } else {
      var rest := ReplaceAll(t[1..], pat, [c]);
      assert ReplaceAll(t, pat, [c]) == [t[0]] + rest;
      assert q[1..] <= rest;
      PrefixSurvivesReplace(t[1..], pat, c, q[1..]);
      assert q == [q[0]] + q[1..];
    }
  }

  /**
   After replacing `pat` by a single character `c`, a pattern `q` that does
   not contain `c` does not occur — provided `q` is `pat` itself (which the
   scan removed) or did not occur beforehand.
   */
  lemma {:induction false} ReplaceLeavesNoOccurrence(s: string, pat: string, c: char, q: string)
    requires |pat| > 0 && |q| > 0 && c !in q
    requires q == pat || !Occurs(s, q)
    ensures !Occurs(ReplaceAll(s, pat, [c]), q)
    decreases |s|
  {
    if |s| == 0 {
    } else if pat <= s {
      var tail := s[|pat|..];
      if q != pat && Occurs(tail, q) {
        OccursInSuffix(s, |pat|, q);
      }
      ReplaceLeavesNoOccurrence(tail, pat, c, q);
      var r := ReplaceAll(s, pat, [c]);
      assert r == [c] + ReplaceAll(tail, pat, [c]);
      assert r[1..] == ReplaceAll(tail, pat, [c]);
      assert r[0] == c;
    } else {
      ReplaceLeavesNoOccurrence(s[1..], pat, c, q);
      var rest := ReplaceAll(s[1..], pat, [c]);
      var r := ReplaceAll(s, pat, [c]);
      assert r == [s[0]] + rest;
      assert r[1..] == rest;
      if q[1..] <= rest {
        PrefixSurvivesReplace(s[1..], pat, c, q[1..]);
      }
    }
  }

  function Min(a: int, b: int): int { if a <= b then a else b }
  function Max(a: int, b: int): int { if a <= b then b else a }

  /**
   `s.substr(start, length)` (ECMAScript Annex B): a negative `start` counts
   from the end, `start` is clamped to the string, a non-positive `length`
   gives the empty string and the result is cut at the end of `s`.
   */
  function Substr(s: string, start: int, length: int): (r: string)
    ensures |r| <= |s| && Occurs(s, r)
    ensures length <= 0 ==> r == ""
    ensures 0 <= start && 0 <= length && start + length <= |s| ==> r == s[start..start + length]
    ensures 0 <= start <= |s| <= start + length ==> r == s[start..]
    ensures |s| <= start ==> r == ""
  {
    var size := |s|;
    var intStart := if start < 0 then Max(size + start, 0) else Min(start, size);
    var intLength := Min(Max(length, 0), size);
    var intEnd := Min(intStart + intLength, size);
    SliceOccurs(s, intStart, intEnd);
    s[intStart..intEnd]
  }

  /** Every slice of `s` occurs in `s`. */
  lemma {:induction false} SliceOccurs(s: string, i: nat, j: nat)
    requires i <= j <= |s|
    ensures Occurs(s, s[i..j])
  {
    assert s[i..j] <= s[i..];
    if i > 0 {
      OccursInSuffix(s, i, s[i..j]);
    }
  }

  /** ECMAScript WhiteSpace and LineTerminator code points, which `trim` removes. */
  predicate IsWhitespace(c: char) {
    // TAB, LF, VT, FF, CR, SPACE
    c == '\t' || c == '\n' || c == '\U{000B}' || c == '\U{000C}' || c == '\r' || c == ' '
    // NO-BREAK SPACE, OGHAM SPACE MARK, EN QUAD .. HAIR SPACE
    || c == '\U{00A0}' || c == '\U{1680}' || ('\U{2000}' <= c <= '\U{200A}')
    // LINE SEPARATOR, PARAGRAPH SEPARATOR, NARROW NO-BREAK SPACE, MEDIUM MATHEMATICAL SPACE
    || c == '\U{2028}' || c == '\U{2029}' || c == '\U{202F}' || c == '\U{205F}'
    // IDEOGRAPHIC SPACE, ZERO WIDTH NO-BREAK SPACE (byte order mark)
    || c == '\U{3000}' || c == '\U{FEFF}'
  }

  /** `s` consists of whitespace only. */
  predicate AllWhitespace(s: string) {
    forall k :: 0 <= k < |s| ==> IsWhitespace(s[k])
  }

  /** Removes leading whitespace. */
  function TrimStart(s: string): (r: string)
    ensures |r| <= |s| && r == s[|s| - |r|..]
    ensures AllWhitespace(s[..|s| - |r|])
    ensures |r| > 0 ==> !IsWhitespace(r[0])
    decreases |s|
  {
    if |s| > 0 && IsWhitespace(s[0]) then
      var r := TrimStart(s[1..]);
      assert s[1..][..|s| - 1 - |r|] == s[1..|s| - |r|];
      r
    else s
  }

  /** Removes trailing whitespace. */
  function TrimEnd(s: string): (r: string)
    ensures |r| <= |s| && r == s[..|r|]
    ensures AllWhitespace(s[|r|..])
    ensures |r| > 0 ==> !IsWhitespace(r[|r| - 1])
    decreases |s|
  {
    if |s| > 0 && IsWhitespace(s[|s| - 1]) then
      var r := TrimEnd(s[..|s| - 1]);
      assert s[..|s| - 1][|r|..] == s[|r|..|s| - 1];
      r
    else s
  }

  /** Whitespace on both sides of a cut point makes the whole string whitespace. */
  lemma AllWhitespaceJoin(s: string, i: nat)
    requires i <= |s| && AllWhitespace(s[..i]) && AllWhitespace(s[i..])
    ensures AllWhitespace(s)
  {
    forall k | 0 <= k < |s| ensures IsWhitespace(s[k]) {
      if k < i {
        assert s[k] == s[..i][k];
      } else {
        assert s[k] == s[i..][k - i];
      }
    }
  }

  /** `r` is the slice of `s` at `i`, and only whitespace lies before and after it. */
  predicate CutAt(s: string, r: string, i: int) {
    0 <= i <= i + |r| <= |s| && r == s[i..i + |r|]
    && AllWhitespace(s[..i]) && AllWhitespace(s[i + |r|..])
  }

  /** A prefix `r` of the suffix `a` of `s`, with whitespace before `a` and after `r`, is a cut of `s`. */
  lemma CutOfSuffix(s: string, a: string, r: string, i: nat)
    requires i <= |s| && a == s[i..] && |r| <= |a| && r == a[..|r|]
    requires AllWhitespace(s[..i]) && AllWhitespace(a[|r|..])
    ensures CutAt(s, r, i)
  {
    assert r == s[i..i + |r|];
    assert a[|r|..] == s[i + |r|..];
  }

  /** Trimming the start and then the end cuts out a slice with only whitespace around it. */
  lemma TrimBothEnds(s: string)
    ensures CutAt(s, TrimEnd(TrimStart(s)), |s| - |TrimStart(s)|)
  {
    var a := TrimStart(s);
    CutOfSuffix(s, a, TrimEnd(a), |s| - |a|);
  }

  /** Trimming leaves nothing exactly when there is nothing but whitespace. */
  lemma TrimEmpty(s: string)
    ensures TrimEnd(TrimStart(s)) == "" <==> AllWhitespace(s)
  {
    var a := TrimStart(s);
    var r := TrimEnd(a);
    var i := |s| - |a|;
    assert a == s[i..];
    if r == "" {
      assert a[|r|..] == a;
      AllWhitespaceJoin(s, i);
    } else {
      assert s[i] == r[0];
    }
  }

  /**
   `s.trim()`: the result is a slice of `s` with neither leading nor trailing
   whitespace, and only whitespace was cut off on either side.
   */
  function Trim(s: string): (r: string)
    ensures exists i :: CutAt(s, r, i)
    ensures |r| > 0 ==> !IsWhitespace(r[0]) && !IsWhitespace(r[|r| - 1])
    ensures r == "" <==> AllWhitespace(s)
  {
    TrimBothEnds(s);
    TrimEmpty(s);
    var a := TrimStart(s);
    var r := TrimEnd(a);
    assert |r| > 0 ==> r[0] == a[0];
    r
  }

  /** Trimming is idempotent. */
  lemma TrimIdempotent(s: string)
    ensures Trim(Trim(s)) == Trim(s)
  {
    var r := Trim(s);
    if |r| > 0 {
      assert TrimStart(r) == r;
      assert TrimEnd(r) == r;
    }
  }
}

=== FILE: transcript.dfy ===
/**
 The data the transcript normalisers consume and produce: the two raw
 transcript formats (already parsed from JSON), the caller's requested time
 window, and the normalised range handed back.
 */
module Transcript {
  import opened Wrappers

  /**
   A millisecond timestamp as JavaScript computes it. `NaN` is the value
   `undefined + 1` produces when a Format-B word has to be estimated before
   any anchor was seen; it prints as "NaN" and `+"NaN"` is NaN again.
   */
  datatype Stamp = Millis(ms: int) | NaN

  /** One entry of an output word list: `[timestamp, text]`. */
  datatype TimedWord = TimedWord(time: Stamp, text: string)

  /** Format A word `[timestampMillis, text]`. */
  datatype AlignedWord = AlignedWord(time: int, text: string)

  /**
   Format B word. Offsets index the flat transcript text; `startOffset` may be
   missing. `start` is the alignment anchor, already converted to whole
   milliseconds (`start * 1000`), and is missing on unaligned words.
   */
  datatype OffsetWord = OffsetWord(startOffset: Option<int>, endOffset: int, start: Option<int>)

  /**
   The parsed response body, told apart once by its shape: a body whose
   `transcript` carries `words` is Format A, any other is Format B.
   `duration` is the episode length in seconds.
   */
  datatype RawTranscript =
    | FormatA(words: seq<AlignedWord>, paragraphs: seq<int>, duration: real)
    | FormatB(text: string, offsetWords: seq<OffsetWord>, duration: real)

  /** The caller's optional window bounds, in seconds. */
  datatype Request = Request(start: Option<real>, end: Option<real>)

  /** `range` of the output: window bounds in seconds, words, and paragraph start times in ms. */
  datatype Range = Range(start: real, end: real, words: seq<TimedWord>, paragraphs: seq<Stamp>)

  /** JavaScript truthiness of an optional number: present and non-zero. */
  predicate Truthy(x: Option<real>) {
    x.Some? && x.value != 0.0
  }

  /** `x || fallback` for an optional number. */
  function OrElse(x: Option<real>, fallback: real): real {
    if Truthy(x) then x.value else fallback
  }

  /** A paragraph start in milliseconds as an output stamp. */
  function ToStamp(ms: int): Stamp {
    Millis(ms)
  }

  /** `x || y` for two numbers. */
  function NumOr(x: real, y: real): real {
    if x != 0.0 then x else y
  }
}

=== FILE: wrappers.dfy ===
/** The optional-value wrapper used for JSON fields that may be absent. */
module Wrappers {

  /** A value that may be missing: `None` stands for JavaScript `undefined`. */
  datatype Option<+T> = None | Some(value: T)
}
